=== FILE: README.md ===
# Data workspace: approvals, templates and name rules in Dafny

This project models the behavioural core of the data workspace's application
models:

- **Visualisation approvals** (`approvals.dfy`). An approval record keeps the
  `approved` flag it was constructed, loaded or last saved with as its
  baseline. `save` runs in one transaction. It is refused with no effect when
  it would turn a rescinded approval back on. It is also refused when an
  already saved record is saved with its flag unchanged. Otherwise the row is
  written and exactly one audit event is logged: approved or unapproved, with
  the approver as actor and the record as related object. Then the baseline
  is reset to the saved flag. The class `VisualisationApproval` holds the
  fields `approved`, `initialApproved` and `saved` (standing for "the
  modification date is set") and a ghost copy of the stored row (flag,
  approver and visualisation). The audit log is a separate `EventLog` object (`audit_log.dfy`). The method `SaveAll`
  drives one record object through any sequence of saves. It proves that the
  events logged are those the function `Logged` predicts. The lemma
  `RecordLifetime` then shows that one record object logs at most an
  approval followed by an un-approval.
- **Templates** (`templates.dfy`). The tool and visualisation proxies force
  the row's application type before saving. `UserHasAccess` is the access
  rule over the template's access type and the permission rows. The rows are
  unique per (user, template) pair.
- **Unique-keyed tables** (`unique_tables.dfy`, `instances.dfy`). Templates are
  unique on `host_basename`. Instances are unique on
  `single_running_or_spawning_integrity`. A save writes the row under its
  primary key, or fails with an integrity error and changes nothing when
  another row already holds the key. The integrity value of an instance is an
  input to the write.
- **Name validators** (`name_validators.dfy`). A template name must match
  `^[a-z]+$` and have at most 128 characters. A reference dataset field name
  must match `^[a-z][a-z0-9_.]*$` and have at most 60 characters. Each pattern
  is a small recursive matcher, proved equal to its character-by-character
  reading.

Where the source's own messages and its code differ, the model follows the
code:

- The approval error message says that the only change that can be made to an
  approval is to unapprove it (dataworkspace/dataworkspace/apps/applications/models.py:149).
  The guard also accepts the first save of a new record whose flag is
  unchanged, whether approved or rescinded (lines 143-150).
- The field-name help text and error message mention only letters, digits
  and underscores (app/app/migrations/0030_auto_20190717_1450.py:18-19). The
  regex also admits `.` after the first character. The regex is followed.

The approval guard inspects only the `approved` flag, its baseline and
whether the record has been saved. Other fields may change in the same save.
The approver and the visualisation are mutable fields of the record. The
logged actor is the approver the record holds when `Save` runs.

## Model

| member | source | states |
|---|---|---|
| `NameValidators.ValidTemplateName` | dataworkspace/dataworkspace/apps/applications/models.py:15-21 | a template name is valid when it matches `^[a-z]+$`, is non-blank and has at most 128 characters |
| `NameValidators.ValidFieldName` | app/app/migrations/0030_auto_20190717_1450.py:17-19 | a field name is valid when it matches `^[a-z][a-z0-9_.]*$`, is non-blank and has at most 60 characters |
| `NameValidators.LowerPlusMeansAllLower` | dataworkspace/dataworkspace/apps/applications/models.py:16 | `[a-z]+` matches exactly the non-empty strings of lowercase letters |
| `NameValidators.TemplateNameValidity` | dataworkspace/dataworkspace/apps/applications/models.py:15-21 | a template name is valid iff it is non-empty, at most 128 characters, and every character is in `a`–`z` |
| `NameValidators.FieldCharStarMeansAllFieldChars` | app/app/migrations/0030_auto_20190717_1450.py:19 | `[a-z0-9_.]*` matches exactly the strings whose every character is a lowercase letter, digit, `_` or `.` |
| `NameValidators.FieldNameValidity` | app/app/migrations/0030_auto_20190717_1450.py:17-19 | a field name is valid iff it is non-empty, at most 60 characters, starts with `a`–`z`, and continues with lowercase letters, digits, `_` or `.` |
| `NameValidators.FieldNameStartsWithLowerLetter` | app/app/migrations/0030_auto_20190717_1450.py:19 | a name whose first character is not a lowercase letter is rejected |
| `NameValidators.FieldNameExamples` | app/app/migrations/0030_auto_20190717_1450.py:18-19 | `abc_1.x` is accepted (the dot too, despite the help text); `1abc`, `ABC`, `a b` and the empty name are rejected |
| `NameValidators.TemplatePatternWithinFieldPattern` | app/app/migrations/0030_auto_20190717_1450.py:19 | every string matching the template-name pattern matches the field-name pattern |
| `NameValidators.TemplateNameIsFieldName` | dataworkspace/dataworkspace/apps/applications/models.py:16-17 | a valid template name of at most 60 characters is a valid field name |
| `UniqueTables.AtMostOneHolder` | dataworkspace/dataworkspace/apps/applications/models.py:270-272 | in a table with a unique column, a key value is held by at most one row |
| `UniqueTables.SaveKeepsKeysUnique` | dataworkspace/dataworkspace/apps/applications/models.py:41-43 | writing a row whose key no other row holds keeps the column unique, and the row is then the only holder of its key |
| `UniqueTables.DistinctKeysCoexist` | dataworkspace/dataworkspace/apps/applications/models.py:224-226 | two rows with distinct keys written one after the other are both accepted and both present |
| `UniqueTables.KeepingKeyNeverClashes` | dataworkspace/dataworkspace/apps/applications/models.py:228-229 | rewriting a stored row with its key unchanged never clashes |
| `UniqueTables.Table.Save` | dataworkspace/dataworkspace/apps/applications/models.py:227-231 | the row is written under its primary key iff no other row holds its key; otherwise an integrity error and nothing changes; the column stays unique; re-saving a stored row changes nothing |
| `Templates.ApplicationTemplate.constructor` | dataworkspace/dataworkspace/apps/applications/models.py:22-76 | a new template is visible, a tool, and open to every authenticated user |
| `Templates.ApplicationTemplate.Save` | dataworkspace/dataworkspace/apps/applications/models.py:41-43 | the template row is written iff no other template has its host basename; otherwise the table is unchanged |
| `Templates.ApplicationTemplate.SaveAsTool` | dataworkspace/dataworkspace/apps/applications/models.py:106-111 | the application type becomes `Tool` whatever it was, even when the write is refused; the stored row is then a tool |
| `Templates.ApplicationTemplate.SaveAsVisualisation` | dataworkspace/dataworkspace/apps/applications/models.py:119-126 | the application type becomes `Visualisation` whatever it was; the stored row is then a visualisation |
| `Templates.RepeatedToolSaveIsIdempotent` | dataworkspace/dataworkspace/apps/applications/models.py:106-111 | saving a tool template twice gives the same outcome and the same table as saving it once |
| `Templates.ApplicationTemplate.UserHasAccess` | dataworkspace/dataworkspace/apps/applications/models.py:94-98 | a user has access when the template requires only authentication, or when some permission row pairs this template with the user |
| `Templates.AuthenticationAdmitsEveryone` | dataworkspace/dataworkspace/apps/applications/models.py:94-96 | a template requiring only authentication is open to every user, whatever the permissions |
| `Templates.AuthorizationNeedsExactlyOneGrant` | dataworkspace/dataworkspace/apps/applications/models.py:94-98 | a template requiring authorisation is open to a user iff exactly one permission row grants it (the pair being unique) |
| `Templates.GrantGivesAccess` | dataworkspace/dataworkspace/apps/applications/models.py:264-272 | adding a permission row for (user, template) gives the user access, and never takes access away from anyone |
| `Instances.AtMostOneInstancePerIntegrityKey` | dataworkspace/dataworkspace/apps/applications/models.py:224-231 | at most one instance holds any integrity value; a stored instance is the only holder of its value, so any other instance with that value clashes and is refused |
| `Approvals.SaveGuard` | dataworkspace/dataworkspace/apps/applications/models.py:143-150 | a save is accepted iff it rescinds an approval, or is the first save of a record whose flag is unchanged since construction |
| `Approvals.EventFor` | dataworkspace/dataworkspace/apps/applications/models.py:154-163 | the logged event is "approved" iff the flag is set, else "unapproved" |
| `Approvals.RescindedApprovalCannotFlip` | dataworkspace/dataworkspace/apps/applications/models.py:143-146 | baseline false with flag true is refused with the "cannot flip" error, saved or not |
| `Approvals.UnchangedResaveRejected` | dataworkspace/dataworkspace/apps/applications/models.py:147-150 | a saved record with its flag equal to the baseline is refused, so an immediate re-save after a successful save fails |
| `Approvals.FirstSaveAccepted` | dataworkspace/dataworkspace/apps/applications/models.py:135-150 | the first save of a record with its flag unchanged since construction is accepted, approved or rescinded |
| `Approvals.RescindAccepted` | dataworkspace/dataworkspace/apps/applications/models.py:143-152 | turning an approval off is accepted |
| `Approvals.RescindedRecordIsFinal` | dataworkspace/dataworkspace/apps/applications/models.py:143-164 | after a saved rescission, no later save of the record object succeeds or logs anything |
| `Approvals.ApprovedRecordOnlyRescinds` | dataworkspace/dataworkspace/apps/applications/models.py:143-164 | after a saved approval, later saves of the record object log at most one event, an un-approval |
| `Approvals.RecordLifetime` | dataworkspace/dataworkspace/apps/applications/models.py:135-164 | over its life a record object logs nothing, one approval, one un-approval, or an approval then an un-approval; one created rescinded never logs an approval |
| `Approvals.SaveAll` | dataworkspace/dataworkspace/apps/applications/models.py:139-164 | repeatedly setting the flag and calling `Save` on one record object appends exactly the event types `Logged` predicts from its baseline, keeps the earlier entries, leaves the approver and the visualisation unchanged, and every new entry has the approver as actor and the record as related object |
| `Approvals.VisualisationApproval.constructor` | dataworkspace/dataworkspace/apps/applications/models.py:129-137 | a new record is approved by default, unsaved, and its baseline is its flag |
| `Approvals.VisualisationApproval.FromDatabase` | dataworkspace/dataworkspace/apps/applications/models.py:135-137 | a loaded record is saved and its baseline is the stored flag |
| `AuditLog.EventLog.LogEvent` | dataworkspace/dataworkspace/apps/applications/models.py:155-162 | logging an event appends exactly one (actor, event type, related object) entry and keeps every earlier entry |
| `Approvals.VisualisationApproval.Save` | dataworkspace/dataworkspace/apps/applications/models.py:139-164 | the outcome is `SaveGuard`'s verdict; a refusal changes nothing and logs nothing; an acceptance writes the row (flag, approver, visualisation), appends exactly one event (approver, type by flag, this record) and resets the baseline to the saved flag |

## Left out

- The request context processor is not part of this model. It only copies settings and the request scheme into a template context.
- The internals of the audit log are not part of this model. `AuditLog.EventLog.LogEvent` stands in for them and only appends.
- How the modification date is set is not part of this model. It becomes the `saved` flag, which turns true on a successful save.
- The transaction is modelled as "a refused save changes nothing". A failure inside the row write or the logging, and the rollback it would cause, is not modelled.
- A save does not run field validators in this framework. The name rules are therefore pure predicates and no save checks them.
- `max_length` limits of the other character columns are not modelled. These are database-level limits on opaque strings.
- The derivation of an instance's integrity value from its host and state is not part of this model. So is any state transition (spawning, running, stopped). As a result, "a new instance for a host is accepted once the old one stops" is not stated.
- An instance row keeps only its integrity column. The owner, public host, template and state are not modelled, because no modelled behaviour reads them.
- Spawner fields, `proxy_url`, CPU and memory strings, `commit_id`, `wrap`, `spawner_time` and `gitlab_project_id` are not modelled. They are opaque external data, and the nullable uniqueness of `gitlab_project_id` is database NULL behaviour.
- Index and permission declarations, the `__str__` methods, database users per instance and the instance report proxy are not modelled. They carry no behaviour.
- The `force_insert`, `force_update`, `using` and `update_fields` arguments of `save` are not modelled. Every save writes the whole row under its primary key.
- Deleting rows, including cascades, is not modelled.
- Python regex details are not modelled. `$` is end-of-string here, although Python also lets it match before a final newline.
- The tool and visualisation proxies are two save methods on one template class, not subclasses.
- `approved` is a boolean. The source's identity tests (`is False`, `is True`) are modelled as boolean tests.
- Concurrent writers and the store's isolation level are not modelled.
- Several in-memory objects for one stored approval row are not modelled as sharing state. Each object keeps its own baseline, as in the source. So two objects loaded from the same approved row can each rescind and save, and that one row then logs two un-approvals. The lifetime lemmas hold per record object, not per stored row.

=== FILE: approvals.dfy ===
/** Visualisation approvals.

    An approval record remembers the `approved` flag it was constructed (or
    loaded, or last saved) with as its baseline. Saving is all-or-nothing: it is
    refused, with no effect, when it would turn a rescinded approval back on,
    or when an already saved record is saved with its flag unchanged.
    Otherwise the row is written, exactly one audit event (approved or
    unapproved) is logged with the approver as actor and the record as related
    object, and the baseline becomes the saved flag. */
module Approvals {
  import opened Identifiers
  import opened AuditLog

  datatype SaveError =
    | CannotFlipRescinded   // a new record must be created for a new approval
    | OnlyUnapproveAllowed  // the only change allowed to a saved approval is to unapprove it

  datatype Verdict = Accept | Reject(error: SaveError)

  /** The guard at the head of `save`, over the baseline flag, the current flag
      and whether the record has been saved before (its modification date is set).
      A save is accepted exactly when it rescinds an approval, or when it is the
      first save of a record whose flag is unchanged since construction. */
  function SaveGuard(initialApproved: bool, approved: bool, saved: bool): (v: Verdict)
    ensures v == Accept <==> (initialApproved && !approved) || (initialApproved == approved && !saved)
  {
    if !initialApproved && approved then Reject(CannotFlipRescinded)
    else if initialApproved == approved && saved then Reject(OnlyUnapproveAllowed)
    else Accept
  }

  /** The audit event a successful save logs. */
  function EventFor(approved: bool): (t: EventType)
    ensures t == VisualisationApproved <==> approved
  {
    if approved then VisualisationApproved else VisualisationUnapproved
  }

  /** Turning a rescinded approval back on is refused, saved or not. */
  lemma RescindedApprovalCannotFlip(saved: bool)
    ensures SaveGuard(false, true, saved) == Reject(CannotFlipRescinded)
  {
  }

  /** Saving an already saved record with its flag unchanged is refused; in
      particular saving again right after a successful save, which resets the
      baseline to the saved flag. */
  lemma UnchangedResaveRejected(approved: bool)
    ensures SaveGuard(approved, approved, true) == Reject(OnlyUnapproveAllowed)
  {
  }

  /** The first save of a new record whose flag is unchanged since
      construction is accepted, whether it was created approved or rescinded. */
  lemma FirstSaveAccepted(approved: bool)
    ensures SaveGuard(approved, approved, false) == Accept
  {
  }

  /** Rescinding an approval is accepted. */
  lemma RescindAccepted(saved: bool)
    ensures SaveGuard(true, false, saved) == Accept
  {
  }

  /** What a save decision depends on: the baseline flag and whether the
      record has been saved. */
  datatype Baseline = Baseline(initialApproved: bool, saved: bool)

  /** The events logged when, starting from baseline `b`, a caller repeatedly
      sets `approved` to `attempts[k]` and saves; a refused save logs nothing
      and keeps the baseline, an accepted one logs its event and moves the
      baseline to the saved flag. */
  function Logged(b: Baseline, attempts: seq<bool>): (events: seq<EventType>)
    decreases |attempts|
  {
    if attempts == [] then []
    else if SaveGuard(b.initialApproved, attempts[0], b.saved).Accept? then
      [EventFor(attempts[0])] + Logged(Baseline(attempts[0], true), attempts[1..])
    else
      Logged(b, attempts[1..])
  }

  /** A saved, rescinded record object can never be saved again. */
  lemma {:induction false} RescindedRecordIsFinal(attempts: seq<bool>)
    ensures Logged(Baseline(false, true), attempts) == []
    decreases |attempts|
  {
    if attempts != [] {
      RescindedRecordIsFinal(attempts[1..]);
    }
  }

  /** A saved, approved record object logs at most one more event, an un-approval. */
  lemma {:induction false} ApprovedRecordOnlyRescinds(attempts: seq<bool>)
    ensures var events := Logged(Baseline(true, true), attempts);
            events == [] || events == [VisualisationUnapproved]
    decreases |attempts|
  {
    if attempts != [] {
      if attempts[0] {
        ApprovedRecordOnlyRescinds(attempts[1..]);
      } else {
        RescindedRecordIsFinal(attempts[1..]);
      }
    }
  }

  /** Over the whole life of a new record object, it logs an approval and then at
      most one un-approval, or a single un-approval, or nothing; a record
      created rescinded never logs an approval. */
  lemma {:induction false} RecordLifetime(createdApproved: bool, attempts: seq<bool>)
    ensures var events := Logged(Baseline(createdApproved, false), attempts);
            || events == []
            || events == [VisualisationApproved]
            || events == [VisualisationUnapproved]
            || events == [VisualisationApproved, VisualisationUnapproved]
    ensures !createdApproved ==> VisualisationApproved !in Logged(Baseline(createdApproved, false), attempts)
    decreases |attempts|
  {
    if attempts != [] {
      var a := attempts[0];
      if SaveGuard(createdApproved, a, false).Accept? {
        if a {
          ApprovedRecordOnlyRescinds(attempts[1..]);
        } else {
          RescindedRecordIsFinal(attempts[1..]);
        }
      } else {
        RecordLifetime(createdApproved, attempts[1..]);
      }
    }
  }

  /** The persisted row of an approval, if it has been written. */
  datatype StoredRow = NotStored | Stored(approved: bool, approver: UserId, visualisation: TemplateId)

  class VisualisationApproval {
    const id: ApprovalId
    /** The approver and the visualisation are ordinary fields a caller may
        reassign before a save; the logged actor is the approver at save time. */
    var approver: UserId
    var visualisation: TemplateId
    var approved: bool
    var initialApproved: bool
    /** Whether the record has been written (its modification date is set). */
    var saved: bool
    ghost var stored: StoredRow

    /** Once this object has written (or loaded) its row, its baseline is
        the flag it wrote (or read). Another object for the same row keeps
        its own baseline, which this predicate does not relate to this one. */
    ghost predicate Valid()
      reads this
    {
      && (stored.Stored? <==> saved)
      && (saved ==> stored.approved == initialApproved)
    }

    ghost function CurrentBaseline(): (b: Baseline)
      reads this
    {
      Baseline(initialApproved, saved)
    }

    /** A new, unsaved record; approvals are approved by default. */
    constructor (id: ApprovalId, approver: UserId, visualisation: TemplateId, approved: bool := true)
      ensures Valid()
      ensures this.id == id && this.approver == approver && this.visualisation == visualisation
      ensures this.approved == approved && initialApproved == approved && !saved
    {
      this.id := id;
      this.approver := approver;
      this.visualisation := visualisation;
      this.approved := approved;
      initialApproved := approved;
      saved := false;
      stored := NotStored;
    }

    /** A record loaded from its stored row. */
    constructor FromDatabase(id: ApprovalId, approver: UserId, visualisation: TemplateId, approved: bool)
      ensures Valid()
      ensures this.id == id && this.approver == approver && this.visualisation == visualisation
      ensures this.approved == approved && initialApproved == approved && saved
      ensures stored == Stored(approved, approver, visualisation)
    {
      this.id := id;
      this.approver := approver;
      this.visualisation := visualisation;
      this.approved := approved;
      initialApproved := approved;
      saved := true;
      stored := Stored(approved, approver, visualisation);
    }

    /** Saves the record in one transaction: either it is refused and nothing
        changes, or the row is written, one event is logged and the baseline
        is reset to the saved flag. */
    method Save(log: EventLog) returns (v: Verdict)
      requires Valid()
      modifies this`initialApproved, this`saved, this`stored, log
      ensures Valid()
      ensures v == SaveGuard(old(initialApproved), approved, old(saved))
      ensures v.Reject? ==>
                && initialApproved == old(initialApproved) && saved == old(saved)
                && stored == old(stored) && log.entries == old(log.entries)
      ensures v.Accept? ==>
                && saved && stored == Stored(approved, approver, visualisation)
                && CurrentBaseline() == Baseline(approved, true)
                && log.entries == old(log.entries) + [Event(approver, EventFor(approved), id)]
    {
      if !initialApproved && approved {
        return Reject(CannotFlipRescinded);
      } else if initialApproved == approved && saved {
        return Reject(OnlyUnapproveAllowed);
      }

      saved := true;
      stored := Stored(approved, approver, visualisation);

      if approved {
        log.LogEvent(approver, VisualisationApproved, id);
      } else {
        log.LogEvent(approver, VisualisationUnapproved, id);
      }
      initialApproved := approved;
      v := Accept;
    }
  }

  /** The event types of a sequence of logged events. */
  ghost function EventTypes(events: seq<Event>): (types: seq<EventType>) {
    seq(|events|, k requires 0 <= k < |events| => events[k].eventType)
  }

  /** Drives one record object through a sequence of save attempts: for each
      `attempts[k]` in turn the caller sets `approved` to it and saves. The
      events this appends to the log are exactly those `Logged` predicts from
      the object's baseline, all with the approver as actor and the record as
      related object; so `RecordLifetime` and its companions describe the
      class itself. */
  method SaveAll(record: VisualisationApproval, log: EventLog, attempts: seq<bool>)
    requires record.Valid()
    modifies record, log
    ensures record.Valid()
    ensures record.approver == old(record.approver) && record.visualisation == old(record.visualisation)
    ensures |log.entries| >= |old(log.entries)| && log.entries[..|old(log.entries)|] == old(log.entries)
    ensures EventTypes(log.entries) == EventTypes(old(log.entries)) + Logged(old(record.CurrentBaseline()), attempts)
    ensures forall k :: |old(log.entries)| <= k < |log.entries| ==>
              log.entries[k].user == record.approver && log.entries[k].relatedObject == record.id
    decreases |attempts|
  {
    if attempts != [] {
      record.approved := attempts[0];
      var _ := record.Save(log);
      SaveAll(record, log, attempts[1..]);
    }
  }
}

=== FILE: audit_log.dfy ===
/** The audit log collaborator: it records (actor, event type, related object)
    triples. Only the two event types raised by visualisation approvals are
    modelled. */
module AuditLog {
  import opened Identifiers

  datatype EventType = VisualisationApproved | VisualisationUnapproved

  datatype Event = Event(user: UserId, eventType: EventType, relatedObject: ApprovalId)

  /** The event log table; entries are only ever appended. */
  class EventLog {
    var entries: seq<Event>

    constructor ()
      ensures entries == []
    {
      entries := [];
    }

    method LogEvent(user: UserId, eventType: EventType, relatedObject: ApprovalId)
      modifies this
      ensures entries == old(entries) + [Event(user, eventType, relatedObject)]
    {
      entries := entries + [Event(user, eventType, relatedObject)];
    }
  }
}

=== FILE: identifiers.dfy ===
/** Primary keys of the records the model refers to. The source uses UUIDs
    and auto-increment integers; only their identity matters here. */
module Identifiers {
  type UserId = nat
  type TemplateId = nat
  type InstanceId = nat
  type ApprovalId = nat
  type PermissionId = nat
}

=== FILE: instances.dfy ===
/** Application instances.

    An instance row carries a `single_running_or_spawning_integrity` column
    declared unique, so that the store refuses a second running or spawning
    instance for one public host while allowing any number of stopped ones.
    How that column's value is derived from the host and the state is not part
    of this model: the value is an input to the write, and only its uniqueness
    is modelled. Instances are written through `UniqueTables.Table.Save`. */
module Instances {
  import opened Identifiers
  import opened UniqueTables

  /** An instance row, reduced to its unique column. The owner, public host,
      template, spawner fields and state are columns no modelled behaviour
      reads, and are left out. */
  datatype InstanceRow = InstanceRow(singleRunningOrSpawningIntegrity: string)

  /** The unique column of the instance table. */
  function IntegrityKey(r: InstanceRow): (k: string) {
    r.singleRunningOrSpawningIntegrity
  }

  /** However the table was filled, at most one instance holds any given
      integrity value, and a stored instance is the only holder of its own:
      a second instance with that value cannot be written beside it. */
  lemma AtMostOneInstancePerIntegrityKey(rows: map<InstanceId, InstanceRow>, k: string)
    requires KeysUnique(rows, IntegrityKey)
    ensures |Holders(rows, IntegrityKey, k)| <= 1
    ensures forall i :: i in rows && rows[i].singleRunningOrSpawningIntegrity == k ==>
              Holders(rows, IntegrityKey, k) == {i}
              && forall other: InstanceId, r: InstanceRow ::
                   other != i && r.singleRunningOrSpawningIntegrity == k ==> KeyTaken(rows, IntegrityKey, other, IntegrityKey(r))
  {
    AtMostOneHolder(rows, IntegrityKey, k);
    forall i | i in rows && rows[i].singleRunningOrSpawningIntegrity == k
      ensures Holders(rows, IntegrityKey, k) == {i}
    {
      assert i in Holders(rows, IntegrityKey, k);
    }
  }
}

=== FILE: name_validators.dfy ===
/** Name validators of the data workspace.

    Two string formats are validated by regular expressions plus a length limit:
    - an application template's `name`: `^[a-z]+$`, at most 128 characters;
    - a reference dataset field's `name`: `^[a-z][a-z0-9_.]*$`, at most 60 characters.
    Both fields are non-blank. `$` is modelled as end-of-string.
    The patterns are written as small recursive matchers, one per regex
    construct, and proved equal to their character-by-character reading. */
module NameValidators {

  const TemplateNameMaxLength: nat := 128
  const FieldNameMaxLength: nat := 60

  /** The character class `[a-z]`. */
  predicate IsLowerLetter(c: char) {
    'a' <= c <= 'z'
  }

  /** The character class `[a-z0-9_.]` (the `.` is escaped in the pattern, so it is a literal dot). */
  predicate IsFieldNameChar(c: char) {
    IsLowerLetter(c) || ('0' <= c <= '9') || c == '_' || c == '.'
  }

  /** `[a-z]+` matched against the whole of `s`. */
  predicate MatchesLowerPlus(s: string)
    decreases |s|
  {
    |s| > 0 && IsLowerLetter(s[0]) && (|s| == 1 || MatchesLowerPlus(s[1..]))
  }

  /** `[a-z0-9_.]*` matched against the whole of `s`. */
  predicate MatchesFieldCharStar(s: string)
    decreases |s|
  {
    |s| == 0 || (IsFieldNameChar(s[0]) && MatchesFieldCharStar(s[1..]))
  }

  /** `^[a-z][a-z0-9_.]*$` */
  predicate MatchesFieldNamePattern(s: string) {
    |s| > 0 && IsLowerLetter(s[0]) && MatchesFieldCharStar(s[1..])
  }

  /** Template `name` validation: the regex, `max_length` and `blank=False`. */
  predicate ValidTemplateName(s: string) {
    |s| > 0 && |s| <= TemplateNameMaxLength && MatchesLowerPlus(s)
  }

  /** Reference dataset field `name` validation: the regex, `max_length` and the
      default `blank=False`. */
  predicate ValidFieldName(s: string) {
    |s| > 0 && |s| <= FieldNameMaxLength && MatchesFieldNamePattern(s)
  }

  /** `[a-z]+` accepts exactly the non-empty strings of lowercase letters. */
  lemma {:induction false} LowerPlusMeansAllLower(s: string)
    ensures MatchesLowerPlus(s) <==> |s| > 0 && forall i :: 0 <= i < |s| ==> IsLowerLetter(s[i])
    decreases |s|
  {
    if |s| > 1 {
      LowerPlusMeansAllLower(s[1..]);
      assert forall i :: 1 <= i < |s| ==> s[i] == s[1..][i - 1];
    }
  }

  /** `[a-z0-9_.]*` accepts exactly the strings whose every character is in the class. */
  lemma {:induction false} FieldCharStarMeansAllFieldChars(s: string)
    ensures MatchesFieldCharStar(s) <==> forall i :: 0 <= i < |s| ==> IsFieldNameChar(s[i])
    decreases |s|
  {
    if |s| > 0 {
      FieldCharStarMeansAllFieldChars(s[1..]);
      assert forall i :: 1 <= i < |s| ==> s[i] == s[1..][i - 1];
    }
  }

  /** A template name is valid iff it is non-empty, at most 128 characters long
      and made of the letters `a` to `z` only. */
  lemma TemplateNameValidity(s: string)
    ensures ValidTemplateName(s) <==>
              0 < |s| <= 128 && forall i :: 0 <= i < |s| ==> 'a' <= s[i] <= 'z'
  {
    LowerPlusMeansAllLower(s);
  }

  /** A field name is valid iff it is non-empty, at most 60 characters long,
      starts with a lowercase letter, and continues with lowercase letters,
      digits, `_` or `.` only. */
  lemma FieldNameValidity(s: string)
    ensures ValidFieldName(s) <==>
              && 0 < |s| <= 60
              && 'a' <= s[0] <= 'z'
              && forall i :: 1 <= i < |s| ==>
                   ('a' <= s[i] <= 'z') || ('0' <= s[i] <= '9') || s[i] == '_' || s[i] == '.'
  {
    if |s| > 0 {
      FieldCharStarMeansAllFieldChars(s[1..]);
      assert forall i :: 1 <= i < |s| ==> s[i] == s[1..][i - 1];
    }
  }

  /** A valid field name starts with a lowercase letter: names starting with a
      digit, an upper-case letter or any other character are rejected. */
  lemma FieldNameStartsWithLowerLetter(s: string)
    requires |s| > 0 && !IsLowerLetter(s[0])
    ensures !ValidFieldName(s)
  {
  }

  /** The regex, not the help text, decides: a dot is accepted after the first
      character, while a leading digit, upper case and a space are rejected. */
  lemma FieldNameExamples()
    ensures ValidFieldName("abc_1.x")
    ensures !ValidFieldName("1abc")
    ensures !ValidFieldName("ABC")
    ensures !ValidFieldName("a b")
    ensures !ValidFieldName("")
  {
  }

  /** Every string matching the template-name pattern also matches the
      field-name pattern. */
  lemma {:induction false} TemplatePatternWithinFieldPattern(s: string)
    requires MatchesLowerPlus(s)
    ensures MatchesFieldNamePattern(s)
  {
    LowerPlusMeansAllLower(s);
    FieldCharStarMeansAllFieldChars(s[1..]);
    assert forall i :: 0 <= i < |s[1..]| ==> s[1..][i] == s[i + 1];
  }

  /** A valid template name of at most 60 characters is also a valid field name. */
  lemma TemplateNameIsFieldName(s: string)
    requires ValidTemplateName(s) && |s| <= FieldNameMaxLength
    ensures ValidFieldName(s)
  {
    TemplatePatternWithinFieldPattern(s);
  }
}

=== FILE: templates.dfy ===
/** Application templates, their two proxy kinds (tools and visualisations)
    and per-user access.

    Templates live in a table whose `host_basename` column is unique. A tool
    template and a visualisation template are the same row seen through a
    proxy whose save first forces the row's application type. Access to a
    template is open to every authenticated user, or restricted to users
    holding a permission row for it; permission rows are unique per
    (user, template) pair. */
module Templates {
  import opened Identifiers
  import opened UniqueTables

  datatype ApplicationType = Tool | Visualisation

  datatype UserAccessType = RequiresAuthentication | RequiresAuthorization

  /** The persisted columns of a template that the model keeps. */
  datatype TemplateRow = TemplateRow(
    name: string,
    visible: bool,
    hostBasename: string,
    niceName: string,
    applicationType: ApplicationType,
    userAccessType: UserAccessType)

  /** The unique column of the template table. */
  function HostBasename(t: TemplateRow): (host: string) {
    t.hostBasename
  }

  /** A grant of one template to one user. */
  datatype Permission = Permission(user: UserId, applicationTemplate: TemplateId)

  /** The column pair that is unique together in the permission table. */
  function UserAndTemplate(p: Permission): (pair: (UserId, TemplateId)) {
    (p.user, p.applicationTemplate)
  }

  class ApplicationTemplate {
    const id: TemplateId
    var name: string
    var visible: bool
    var hostBasename: string
    var niceName: string
    var applicationType: ApplicationType
    var userAccessType: UserAccessType

    /** The row a save writes. */
    function Row(): (row: TemplateRow)
      reads this
    {
      TemplateRow(name, visible, hostBasename, niceName, applicationType, userAccessType)
    }

    /** A new template with the declared defaults: visible, a tool, open to
        every authenticated user. */
    constructor (id: TemplateId, name: string, hostBasename: string, niceName: string)
      ensures this.id == id
      ensures Row() == TemplateRow(name, true, hostBasename, niceName, Tool, RequiresAuthentication)
    {
      this.id := id;
      this.name := name;
      visible := true;
      this.hostBasename := hostBasename;
      this.niceName := niceName;
      applicationType := Tool;
      userAccessType := RequiresAuthentication;
    }

    /** Whether `user` may use this template, given the permission table. */
    predicate UserHasAccess(user: UserId, permissions: map<PermissionId, Permission>)
      reads this
    {
      || userAccessType == RequiresAuthentication
      || exists p :: p in permissions && permissions[p].applicationTemplate == id && permissions[p].user == user
    }

    /** Writes the template's row under its id; refused, with the table
        unchanged, when another template already has this host basename. */
    method Save(table: Table<TemplateId, TemplateRow, string>) returns (res: WriteOutcome)
      requires table.Valid() && table.key == HostBasename
      modifies table`rows
      ensures table.Valid()
      ensures res == Written <==> !KeyTaken(old(table.rows), HostBasename, id, hostBasename)
      ensures res == Written ==> table.rows == old(table.rows)[id := Row()]
      ensures res == IntegrityError ==> table.rows == old(table.rows)
      ensures id in old(table.rows) && old(table.rows)[id] == Row() ==> res == Written && table.rows == old(table.rows)
    {
      res := table.Save(id, Row());
    }

    /** The save of the tool proxy: the application type becomes `Tool`
        whatever it was (even when the write is then refused), and the row is
        saved. Saving a row that is already stored as is changes nothing. */
    method SaveAsTool(table: Table<TemplateId, TemplateRow, string>) returns (res: WriteOutcome)
      requires table.Valid() && table.key == HostBasename
      modifies this`applicationType, table`rows
      ensures applicationType == Tool
      ensures table.Valid()
      ensures res == Written <==> !KeyTaken(old(table.rows), HostBasename, id, hostBasename)
      ensures res == Written ==> table.rows == old(table.rows)[id := Row()] && table.rows[id].applicationType == Tool
      ensures res == IntegrityError ==> table.rows == old(table.rows)
      ensures id in old(table.rows) && old(table.rows)[id] == Row() ==> res == Written && table.rows == old(table.rows)
    {
      applicationType := Tool;
      res := Save(table);
    }

    /** The save of the visualisation proxy: the application type becomes
        `Visualisation` whatever it was, and the row is saved. */
    method SaveAsVisualisation(table: Table<TemplateId, TemplateRow, string>) returns (res: WriteOutcome)
      requires table.Valid() && table.key == HostBasename
      modifies this`applicationType, table`rows
      ensures applicationType == Visualisation
      ensures table.Valid()
      ensures res == Written <==> !KeyTaken(old(table.rows), HostBasename, id, hostBasename)
      ensures res == Written ==> table.rows == old(table.rows)[id := Row()] && table.rows[id].applicationType == Visualisation
      ensures res == IntegrityError ==> table.rows == old(table.rows)
      ensures id in old(table.rows) && old(table.rows)[id] == Row() ==> res == Written && table.rows == old(table.rows)
    {
      applicationType := Visualisation;
      res := Save(table);
    }
  }

  /** Saving a tool template twice in a row: the second save succeeds
      whenever the first did, and leaves the table as the first left it. */
  method RepeatedToolSaveIsIdempotent(t: ApplicationTemplate, table: Table<TemplateId, TemplateRow, string>)
    returns (first: WriteOutcome, second: WriteOutcome)
    requires table.Valid() && table.key == HostBasename
    modifies t`applicationType, table`rows
    ensures t.applicationType == Tool
    ensures first == Written ==> second == Written && table.rows == old(table.rows)[t.id := t.Row()]
    ensures first == IntegrityError ==> second == IntegrityError && table.rows == old(table.rows)
  {
    first := t.SaveAsTool(table);
    second := t.SaveAsTool(table);
  }

  /** When a template is open to every authenticated user, every user has
      access, whatever the permission table holds. */
  lemma AuthenticationAdmitsEveryone(t: ApplicationTemplate, user: UserId, permissions: map<PermissionId, Permission>)
    requires t.userAccessType == RequiresAuthentication
    ensures t.UserHasAccess(user, permissions)
  {
  }

  /** When a template requires authorisation, a user has access exactly when
      a permission row grants it to them, and with the (user, template) pair
      unique there is then exactly one such row. */
  lemma AuthorizationNeedsExactlyOneGrant(t: ApplicationTemplate, user: UserId, permissions: map<PermissionId, Permission>)
    requires t.userAccessType == RequiresAuthorization
    requires KeysUnique(permissions, UserAndTemplate)
    ensures t.UserHasAccess(user, permissions) <==> |Holders(permissions, UserAndTemplate, (user, t.id))| == 1
  {
    var grants := Holders(permissions, UserAndTemplate, (user, t.id));
    AtMostOneHolder(permissions, UserAndTemplate, (user, t.id));
    if t.UserHasAccess(user, permissions) {
      var p :| p in permissions && permissions[p].applicationTemplate == t.id && permissions[p].user == user;
      assert p in grants;
    }
  }

  /** Granting a template to a user gives them access, and adding a grant
      never takes access away from anyone. */
  lemma GrantGivesAccess(t: ApplicationTemplate, user: UserId, permissions: map<PermissionId, Permission>,
                         pid: PermissionId, granted: Permission, other: UserId)
    requires pid !in permissions
    ensures granted == Permission(user, t.id) ==> t.UserHasAccess(user, permissions[pid := granted])
    ensures t.UserHasAccess(other, permissions) ==> t.UserHasAccess(other, permissions[pid := granted])
  {
    var after := permissions[pid := granted];
    if granted == Permission(user, t.id) {
      assert after[pid].applicationTemplate == t.id && after[pid].user == user;
    }
    if t.UserHasAccess(other, permissions) && t.userAccessType == RequiresAuthorization {
      var p :| p in permissions && permissions[p].applicationTemplate == t.id && permissions[p].user == other;
      assert after[p] == permissions[p];
    }
  }
}

=== FILE: unique_tables.dfy ===
/** Database tables with a unique column.

    A table maps primary keys to rows; one column of the row (given by `key`)
    is declared `unique=True` (or `unique_together`), so the store refuses any
    write that would leave two rows with equal keys. A save writes the row
    under its primary key (an update when the key is present, an insert
    otherwise) and fails with an integrity error on a clash, changing nothing. */
module UniqueTables {

  datatype WriteOutcome = Written | IntegrityError

  /** No two distinct rows share a key. */
  predicate KeysUnique<I, R, K(==)>(rows: map<I, R>, key: R -> K) {
    forall i, j :: i in rows && j in rows && i != j ==> key(rows[i]) != key(rows[j])
  }

  /** Some row other than the one stored under `id` already holds key `k`. */
  predicate KeyTaken<I, R, K(==)>(rows: map<I, R>, key: R -> K, id: I, k: K) {
    exists j :: j in rows && j != id && key(rows[j]) == k
  }

  /** The primary keys of the rows holding key `k`. */
  function Holders<I, R, K(==)>(rows: map<I, R>, key: R -> K, k: K): (holders: set<I>) {
    set i | i in rows && key(rows[i]) == k
  }

  /** With unique keys, a key is held by at most one row. */
  lemma AtMostOneHolder<I, R, K>(rows: map<I, R>, key: R -> K, k: K)
    requires KeysUnique(rows, key)
    ensures |Holders(rows, key, k)| <= 1
  {
    var h := Holders(rows, key, k);
    if h != {} {
      var i :| i in h;
      assert h == {i};
    }
  }

  /** Writing a row whose key no other row holds keeps the keys unique, and
      afterwards that row is the only holder of its key. */
  lemma SaveKeepsKeysUnique<I, R, K>(rows: map<I, R>, key: R -> K, id: I, r: R)
    requires KeysUnique(rows, key) && !KeyTaken(rows, key, id, key(r))
    ensures KeysUnique(rows[id := r], key)
    ensures Holders(rows[id := r], key, key(r)) == {id}
  {
  }

  /** Two rows with distinct keys, saved one after the other under distinct
      primary keys, are both accepted and both present. */
  lemma DistinctKeysCoexist<I, R, K>(rows: map<I, R>, key: R -> K, id1: I, r1: R, id2: I, r2: R)
    requires KeysUnique(rows, key)
    requires id1 != id2 && key(r1) != key(r2)
    requires !KeyTaken(rows, key, id1, key(r1)) && !KeyTaken(rows, key, id2, key(r2))
    ensures !KeyTaken(rows[id1 := r1], key, id2, key(r2))
    ensures var after := rows[id1 := r1][id2 := r2];
            KeysUnique(after, key) && id1 in after && after[id1] == r1 && id2 in after && after[id2] == r2
  {
  }

  /** Rewriting a stored row with its key unchanged never clashes: another
      row holding that key would already share it with the stored row. */
  lemma KeepingKeyNeverClashes<I, R, K>(rows: map<I, R>, key: R -> K, id: I, r: R)
    requires KeysUnique(rows, key) && id in rows && key(r) == key(rows[id])
    ensures !KeyTaken(rows, key, id, key(r))
  {
  }

  /** A table whose `key` column is unique. */
  class Table<I(==), R, K(==)> {
    const key: R -> K
    var rows: map<I, R>

    ghost predicate Valid()
      reads this
    {
      KeysUnique(rows, key)
    }

    constructor (key: R -> K)
      ensures Valid() && this.key == key && rows == map[]
    {
      this.key := key;
      rows := map[];
    }

    /** Writes `r` under primary key `id`, or reports an integrity error and
        changes nothing when another row already holds `r`'s key. */
    method Save(id: I, r: R) returns (res: WriteOutcome)
      requires Valid()
      modifies this`rows
      ensures Valid()
      ensures res == Written <==> !KeyTaken(old(rows), key, id, key(r))
      ensures res == Written ==> rows == old(rows)[id := r] && Holders(rows, key, key(r)) == {id}
      ensures res == IntegrityError ==> rows == old(rows)
      ensures id in old(rows) && old(rows)[id] == r ==> res == Written && rows == old(rows)
    {
      if id in rows && key(r) == key(rows[id]) {
        KeepingKeyNeverClashes(rows, key, id, r);
      }
      if exists j :: j in rows && j != id && key(rows[j]) == key(r) {
        res := IntegrityError;
      } else {
        SaveKeepsKeysUnique(rows, key, id, r);
        rows := rows[id := r];
        res := Written;
      }
    }
  }
}
